=== FILE: README.md ===
# Omnivox schedule wrapper — verified model

A Dafny model of the logic inside the Vanier College Omnivox wrapper
(`omnivox.py`): the login handshake and its cookie merging, the lazily
discovered schedule selection page of the LEA schedule subsystem with its
per-semester schedule cache, and the translation of the schedule results table
into course records.

The network is abstracted away. Every HTTP response is an input value
(`Discovery`, `ScheduleFetch`, `LoginResponses`), and every operation returns
the log of requests it sent. "No network request on a cache hit" is stated over
that log. Schedule requests are the POST requests in it (`Http.PostCount`).
A parsed page is seen only through what the wrapper selects on it:

- a redirecting page through the target of its `onload` script, or None when that script is malformed;
- the selection page through its `<option>`s and its form action;
- the results page through its warning flag and its nested tables of rows of cells.

Python exceptions become `Failure(Error)`. The page state returned with a
failure keeps the mutations made before the raise. Examples:

- cookies merged at line 108 stay merged when the redirect that follows is malformed;
- semesters stored at line 133 stay stored when the form action at line 134 is missing.

Modules: `Wrappers` and `Errors` (outcome types), `Records` (semesters, courses,
schedules), `Cookies` (cookie jars), `Http` (requests and responses),
`ScheduleTable` (results page translation), `SelectionPage` (the page state
machine), `ScheduleCache` (properties of call sequences), `Login` (the handshake).

Behaviour of omnivox.py worth knowing:

- A discovery that finds zero semesters does not raise. The empty tuple is stored, and because `not self._semesters` is true for it, every later call discovers again (`ScheduleCache.EmptyDiscoveryRepeats`).
- Login succeeds only on status 302. Any other status, other 3xx included, yields no session.
- A short course row is not skipped. Indexing its cells raises, so the whole `get_schedule` call fails and nothing is cached.
- The selection document's cookies (line 119) and the cookies of the two schedule responses (lines 171-186) are never merged into the page's jar.
- When an earlier discovery stored semesters but found no form action, the request URL stays unset. Later calls do not discover again, and `requests.post(url=None)` raises before any I/O. That is `MissingRequestUrl`, with no request sent.

## Model

| member | source | states |
|---|---|---|
| Records.SemesterOf | omnivox.py:127-131 | a semester's id is the option's value, its name the option's text, and it is current exactly when the option has a `selected` attribute |
| Records.SemestersOf | omnivox.py:125-133 | one semester per option, in document order |
| Records.FirstCurrent | omnivox.py:143-146 | None exactly when no semester is current; otherwise the semester returned is current and every earlier one is not |
| Cookies.Update | omnivox.py:90-91 | a jar update keeps every key of both jars; the source jar's value wins on a shared key and the target's value stays elsewhere |
| ScheduleTable.TranslateRowsFrom | omnivox.py:197-211 | rows from i up to the footer translate exactly when none has fewer than five cells; the k-th course comes from row i+k, cells 1-4; on failure the error names the first short row |
| ScheduleTable.TranslateRows | omnivox.py:195-211 | a course table yields max(0, n-4) courses for n rows, course k from row k+3 in row order, fields from cells 1, 2, 3 (labels) and 4 (link); fails exactly when a data row is short, naming the first one |
| ScheduleTable.Translate | omnivox.py:192-211 | the warning marker means zero courses; with no fourth nested table the translation fails; otherwise the course table decides |
| SelectionPage.NewPage | omnivox.py:83-96 | a new page holds a copy of the session's cookies, its reference, and no semesters, request URL or cached schedules |
| SelectionPage.Fetch | omnivox.py:98-134 | discovery sends one GET to the reference with the page's own cookies, and stops there with a malformed-redirect error when the redirect is malformed; otherwise it also sends the bridge GET with the merged cookies and the selection GET; it fails exactly when the redirect is malformed or the form action is missing; it merges the reference and bridge cookies in order, stores the options' semesters, and sets the request URL from the action; the page needs discovery again exactly when no option was found; the cache is untouched |
| SelectionPage.EnsureDiscovered | omnivox.py:140-141 | runs discovery exactly when the semesters are unset or empty, and otherwise sends nothing and changes nothing; never sends a POST or touches the cache; after success the page needs discovery again only if it needed it and found no option |
| SelectionPage.GetCurrentSemester | omnivox.py:136-146 | sends nothing and changes nothing when semesters are stored, and otherwise leaves the page and request log of discovery, failing exactly when discovery fails and with discovery's error; on success the result is the first discovered semester flagged current, or None when none is; after a discovery this is the first current semester among the discovered options |
| SelectionPage.GetAllSemesters | omnivox.py:148-155 | with semesters already stored, it returns them with no request and no state change; otherwise it leaves the page and request log of discovery and returns exactly the semesters of the discovered options, or discovery's error |
| SelectionPage.GetSchedule | omnivox.py:157-218 | a failed discovery is passed through unchanged; an unforced cache hit returns the cached schedule and sends nothing beyond discovery; on a bypassed or missed cache the call succeeds exactly when the request URL is set, the redirect parses and the table translates, it fails with a missing-URL error and no request, with a malformed-redirect error after the POST, or with the translation's error after the POST and the results GET; at most one schedule POST, carrying the semester id to the discovered URL; a fetched schedule belongs to the argument, holds the translated courses (none under the warning), and replaces only its own cache entry; nothing but the cache changes from the page discovery left, so semesters, request URL and reference survive; cookies from the schedule responses are not kept; cache coherence by semester id is preserved |
| ScheduleCache.SameSemesterFetchedOnce | omnivox.py:164-171 | two unforced calls for one semester id, the first succeeding, send at most one schedule request; the second returns the first's schedule when it succeeds, and always, with no request at all, when the first left the page discovered |
| ScheduleCache.ForcedRequestsAlwaysFetch | omnivox.py:167-171 | two successful forced calls send a schedule request each |
| ScheduleCache.DiscoveryNotRepeated | omnivox.py:152-155 | after a discovery that found semesters, listing them sends nothing and returns them in discovered order |
| ScheduleCache.EmptyDiscoveryRepeats | omnivox.py:133-153 | after a discovery that found no semesters the page still needs discovery, and the next listing fetches the reference page again |
| Login.LoginForm | omnivox.py:242-249 | the login form carries the id, the password, the `Etudiant` marker, and the page's `k` token only when the page has one |
| Login.Login | omnivox.py:236-275 | no session exactly when the form answer's status is not 302; otherwise three requests and a session whose cookies are the login page's overridden by the form answer's, then by the landing page's, holding the landing page markup |

## Left out

- HTTP transport: the GETs and POSTs themselves, the User-Agent header and redirect following. Responses are inputs and requests are logged values. A transport failure is not modelled: every round trip yields a response.
- The JavaScript parsing in `get_js_redirect` (omnivox.py:278-286) is a foreign library. A redirecting body is given directly as its target, or None when the script is malformed.
- `pyquery` selection is a foreign library. Documents are given as the parts the wrapper selects: options, form action, warning flag, nested tables and the span and link texts of cells.
- Cookie attributes other than domain, path, name and value (expiry, security flags) are not modelled.
- `async`/`await` is left out. There is no concurrency, so operations are sequential transitions.
- `OmnivoxSession.get_user_fullname` and `get_schedule_page` (omnivox.py:227-233) are selector lookups on the landing page. The page a session opens is `SelectionPage.NewPage` applied to the session's cookies and a reference.
- The `__repr__` methods are left out. The one at omnivox.py:38 prints id and name swapped.
- test.py is a demonstration script that reads credentials from the environment and prints results.
- Form values are logged as written (`Obtain+my+schedule`). Their URL encoding is part of the transport.

=== FILE: cache_lemmas.dfy ===
/** Properties of sequences of selection page operations: how often the cache
    spares a schedule request, and when discovery runs again. */
module ScheduleCache {

  import opened Wrappers
  import opened Records
  import opened Http
  import opened SelectionPage

  /** Two unforced requests for the same semester id, the first of which
      succeeded, send at most one schedule request between them, and the
      second returns what the first did. */
  lemma SameSemesterFetchedOnce(p: Page, s: Semester, s': Semester,
                                d: Discovery, f: ScheduleFetch, d': Discovery, f': ScheduleFetch)
    requires s'.id == s.id
    requires GetSchedule(p, s, false, d, f).result.Success?
    ensures var first := GetSchedule(p, s, false, d, f);
            var second := GetSchedule(first.page, s', false, d', f');
            && PostCount(first.sent + second.sent) <= 1
            && PostCount(second.sent) == 0
            && (second.result.Success? ==> second.result == first.result)
            && (!NeedsDiscovery(first.page) ==> second.result == first.result && second.sent == [])
  {
    var first := GetSchedule(p, s, false, d, f);
    var second := GetSchedule(first.page, s', false, d', f');
    PostCountAppend(first.sent, second.sent);
  }

  /** Two forced requests that both succeed send one schedule request each. */
  lemma ForcedRequestsAlwaysFetch(p: Page, s: Semester, s': Semester,
                                  d: Discovery, f: ScheduleFetch, d': Discovery, f': ScheduleFetch,
                                  first: Step<Schedule>, second: Step<Schedule>)
    requires first == GetSchedule(p, s, true, d, f)
    requires second == GetSchedule(first.page, s', true, d', f')
    requires first.result.Success? && second.result.Success?
    ensures PostCount(first.sent + second.sent) == 2
  {
    PostCountAppend(first.sent, second.sent);
  }

  /** Once discovery has found at least one semester, later queries do not
      discover again: they send nothing and return the same semesters. */
  lemma DiscoveryNotRepeated(p: Page, d: Discovery, d': Discovery)
    requires Fetch(p, d).result.Success?
    requires |d.selection.body.options| > 0
    ensures var q := Fetch(p, d).page;
            GetAllSemesters(q, d') == Step(q, [], Success(SemestersOf(d.selection.body.options)))
  {
  }

  /** A discovery that found no semesters leaves the page needing discovery,
      so the next query fetches the reference page again. */
  lemma EmptyDiscoveryRepeats(p: Page, d: Discovery, d': Discovery)
    requires Fetch(p, d).result.Success?
    requires d.selection.body.options == []
    ensures var q := Fetch(p, d).page;
            && NeedsDiscovery(q)
            && GetAllSemesters(q, d').sent[0] == Get(PortalDomain + p.reference, q.cookies)
  {
  }
}

=== FILE: cookies.dfy ===
/** Cookie jars, as the wrapper uses `requests` cookie jars: a store of cookie
    values keyed by domain, path and name, updated with later-wins semantics. */
module Cookies {

  /** The key a cookie jar stores a cookie under. */
  datatype CookieId = CookieId(domain: string, path: string, name: string)

  type Jar = map<CookieId, string>

  /** The empty jar: a fresh `RequestsCookieJar()`. */
  const Empty: Jar := map[]

  /** `into.update(from)`: every cookie of `from` is set in `into`, replacing a
      cookie stored under the same key; the other cookies of `into` remain. */
  function Update(into: Jar, from: Jar): (r: Jar)
    ensures r.Keys == into.Keys + from.Keys
    ensures forall c :: c in from ==> r[c] == from[c]
    ensures forall c :: c in into && c !in from ==> r[c] == into[c]
  {
    into + from
  }
}

=== FILE: errors.dfy ===
/** The ways a call into the portal wrapper can fail.  Each one stands for the
    Python exception the wrapper lets escape at that point. */
module Errors {

  datatype Error =
    /** The `onload` script of a page body did not have the expected
        call-with-a-string-literal shape. */
    | MalformedRedirect
    /** The semester selection page has no `form` action, so the request URL
        cannot be built. */
    | MissingFormAction
    /** A schedule is requested while no request URL has been discovered. */
    | MissingRequestUrl
    /** The results page has fewer than four nested tables in its layout. */
    | MissingCourseTable
    /** Data row `row` of the course table has fewer than five cells. */
    | MalformedRow(row: nat)
}

=== FILE: http.dfy ===
/** The HTTP round trips of the wrapper, as values: the requests it sends and
    the responses it is handed back.  The transport itself is not modelled; each
    response is an input the caller supplies. */
module Http {

  import opened Cookies

  /** The general-services portal. */
  const PortalDomain: string := "https://vaniercollege.omnivox.ca"
  /** The schedule subsystem. */
  const LeaDomain: string := "https://vaniercollege-estd.omnivox.ca/estd"
  /** The login form, fetched and then posted to. */
  const LoginUrl: string := "https://vaniercollege.omnivox.ca/intr/Module/Identification/Login/Login.aspx?ReturnUrl=/intr"
  /** The authenticated landing page. */
  const HomepageUrl: string := "https://vaniercollege.omnivox.ca/intr/"

  /** A request the wrapper sends, with the cookies it attaches. */
  datatype Request =
    | Get(url: string, cookies: Jar)
    | Post(url: string, form: map<string, string>, cookies: Jar)

  /** A response: the cookies it sets, its status code and its parsed body. */
  datatype Response<B> = Response(status: int, cookies: Jar, body: B)

  /** The number of POST requests in a request log. */
  function PostCount(sent: seq<Request>): (n: nat)
    ensures n <= |sent|
    ensures n == 0 <==> forall i :: 0 <= i < |sent| ==> sent[i].Get?
  {
    if |sent| == 0 then 0
    else (if sent[0].Post? then 1 else 0) + PostCount(sent[1..])
  }

  /** Counting POSTs distributes over concatenated logs. */
  lemma {:induction false} PostCountAppend(a: seq<Request>, b: seq<Request>)
    ensures PostCount(a + b) == PostCount(a) + PostCount(b)
    decreases |a|
  {
    if |a| == 0 {
      assert a + b == b;
    } else {
      assert (a + b)[1..] == a[1..] + b;
      PostCountAppend(a[1..], b);
    }
  }
}

=== FILE: login.dfy ===
/** The login handshake with the general-services portal and the session it
    produces. */
module Login {

  import opened Wrappers
  import opened Cookies
  import opened Http

  /** An authenticated session: its cookie jar and the landing page markup. */
  datatype Session = Session(cookies: Jar, homepageHtml: string)

  /** The responses the handshake receives: the login page, seen through the
      value of its hidden `k` field when present; the answer to the login form;
      and the landing page markup. */
  datatype LoginResponses = LoginResponses(
    loginPage: Response<Option<string>>,
    loginPost: Response<()>,
    homepage: Response<string>)

  /** The requests the handshake sent and the session it produced, if any. */
  datatype LoginOutcome = LoginOutcome(sent: seq<Request>, session: Option<Session>)

  /** The only status that means the portal accepted the credentials. */
  const LoginRedirectStatus: int := 302

  /** The login form.  A form field whose value is None is not sent, so a
      login page without a `k` field yields a form without it. */
  function LoginForm(studentId: string, password: string, token: Option<string>): (form: map<string, string>)
    ensures form.Keys == {"NoDA", "PasswordEtu", "TypeIdentification"} + (if token.Some? then {"k"} else {})
    ensures form["NoDA"] == studentId && form["PasswordEtu"] == password
    ensures form["TypeIdentification"] == "Etudiant"
    ensures token.Some? ==> form["k"] == token.value
  {
    var base := map["NoDA" := studentId, "PasswordEtu" := password, "TypeIdentification" := "Etudiant"];
    match token
    case None => base
    case Some(k) => base["k" := k]
  }

  /** Log in: fetch the login page, post the form with that page's cookies,
      and on a 302 answer post to the landing page and build the session. */
  function Login(studentId: string, password: string, r: LoginResponses): (o: LoginOutcome)
    ensures o.session.None? <==> r.loginPost.status != LoginRedirectStatus
    ensures |o.sent| == if o.session.Some? then 3 else 2
    ensures o.sent[0] == Get(LoginUrl, Empty)
    ensures o.sent[1] == Post(LoginUrl, LoginForm(studentId, password, r.loginPage.body), r.loginPage.cookies)
    ensures o.session.Some? ==>
      && o.sent[2] == Post(HomepageUrl, map[], Update(r.loginPage.cookies, r.loginPost.cookies))
      && o.session.value.homepageHtml == r.homepage.body
    // the session's cookies: the login page's, overridden by the login answer's,
    // overridden by the landing page's
    ensures o.session.Some? ==>
      var jar := o.session.value.cookies;
      && jar.Keys == r.loginPage.cookies.Keys + r.loginPost.cookies.Keys + r.homepage.cookies.Keys
      && (forall c :: c in r.homepage.cookies ==> jar[c] == r.homepage.cookies[c])
      && (forall c :: c in r.loginPost.cookies && c !in r.homepage.cookies ==> jar[c] == r.loginPost.cookies[c])
      && (forall c :: c in r.loginPage.cookies && c !in r.loginPost.cookies && c !in r.homepage.cookies ==>
            jar[c] == r.loginPage.cookies[c])
  {
    var pageRequest := Get(LoginUrl, Empty);
    var formPost := Post(LoginUrl, LoginForm(studentId, password, r.loginPage.body), r.loginPage.cookies);
    if r.loginPost.status != LoginRedirectStatus then
      LoginOutcome([pageRequest, formPost], None)
    else
      var cookies := Update(r.loginPage.cookies, r.loginPost.cookies);
      var homepagePost := Post(HomepageUrl, map[], cookies);
      LoginOutcome([pageRequest, formPost, homepagePost],
                   Some(Session(Update(cookies, r.homepage.cookies), r.homepage.body)))
  }
}

=== FILE: records.dfy ===
/** The value records of the wrapper: semesters, courses and schedules. */
module Records {

  import opened Wrappers

  /** A semester as listed on the schedule selection page. */
  datatype Semester = Semester(id: string, name: string, current: bool)

  /** One course of a semester schedule; every field is the free text read from the page. */
  datatype Course = Course(number: string, section: string, title: string, teacher: string)

  /** The schedule of one semester: its courses in table row order. */
  datatype Schedule = Schedule(semester: Semester, courses: seq<Course>)

  /** An `<option>` of the semester `<select>`: its value, its text, and its
      `selected` attribute when it carries one. */
  datatype OptionNode = OptionNode(value: string, text: string, selected: Option<string>)

  /** The semester an option stands for. */
  function SemesterOf(o: OptionNode): (s: Semester)
    ensures s.id == o.value && s.name == o.text
    ensures s.current <==> o.selected.Some?
  {
    Semester(o.value, o.text, o.selected.Some?)
  }

  /** The semesters of a list of options, in document order. */
  function SemestersOf(os: seq<OptionNode>): (ss: seq<Semester>)
    ensures |ss| == |os|
    ensures forall i :: 0 <= i < |os| ==> ss[i] == SemesterOf(os[i])
  {
    seq(|os|, i requires 0 <= i < |os| => SemesterOf(os[i]))
  }

  /** The first semester of `ss` flagged as current, if any. */
  function FirstCurrent(ss: seq<Semester>): (r: Option<Semester>)
    ensures r.None? <==> forall i :: 0 <= i < |ss| ==> !ss[i].current
    ensures r.Some? ==> exists i :: 0 <= i < |ss| && ss[i] == r.value && ss[i].current &&
                                    forall j :: 0 <= j < i ==> !ss[j].current
  {
    if |ss| == 0 then None
    else if ss[0].current then Some(ss[0])
    else FirstCurrent(ss[1..])
  }
}

=== FILE: selection_page.dfy ===
/** The schedule selection page of the schedule subsystem: a state machine that
    discovers the semesters and the schedule request URL on first use, then
    fetches and caches one schedule per semester id.

    Every operation takes the responses the network would return as inputs and
    gives back the new page state, the log of requests it sent, and its result
    or the error it raised.  An error leaves the state as it was when the
    exception was raised: mutations made before that point persist. */
module SelectionPage {

  import opened Wrappers
  import opened Errors
  import opened Records
  import opened Cookies
  import opened Http
  import opened ScheduleTable

  /** The state of a selection page.  `semesters` and `requestUrl` are unset
      until discovery; `cache` maps a semester id to its schedule. */
  datatype Page = Page(
    cookies: Jar,
    reference: string,
    semesters: Option<seq<Semester>>,
    requestUrl: Option<string>,
    cache: map<string, Schedule>)

  /** What an operation leaves behind: the new page, the requests it sent, its outcome. */
  datatype Step<T> = Step(page: Page, sent: seq<Request>, result: Result<T, Error>)

  /** The selection document of the schedule subsystem: the options of its
      semester `<select>` and the action of its form, when it has one. */
  datatype SelectionDoc = SelectionDoc(options: seq<OptionNode>, formAction: Option<string>)

  /** The responses discovery receives.  A redirecting body is seen through the
      target of its `onload` script, or None when that script is malformed. */
  datatype Discovery = Discovery(
    reference: Response<Option<string>>,
    bridge: Response<()>,
    selection: Response<SelectionDoc>)

  /** The responses a schedule fetch receives: the redirecting answer to the
      schedule request and the results page it leads to. */
  datatype ScheduleFetch = ScheduleFetch(
    request: Response<Option<string>>,
    results: Response<ResultsPage>)

  /** The form posted to request the schedule of semester `id`. */
  function ScheduleForm(id: string): map<string, string>
  {
    map["AnSession" := id, "Confirm" := "Obtain+my+schedule"]
  }

  /** The cache holds each schedule under the id of its own semester. */
  ghost predicate CacheCoherent(p: Page)
  {
    forall id :: id in p.cache ==> p.cache[id].semester.id == id
  }

  /** Python's `not self._semesters`: true when the semesters are unset and
      also when discovery found none. */
  predicate NeedsDiscovery(p: Page)
  {
    p.semesters.None? || |p.semesters.value| == 0
  }

  /** A new page for a session: it owns a copy of the session's cookies and has
      discovered nothing yet. */
  function NewPage(sessionCookies: Jar, reference: string): (p: Page)
    ensures p.cookies == sessionCookies && p.reference == reference
    ensures p.semesters.None? && p.requestUrl.None?
    ensures p.cache == map[] && CacheCoherent(p)
  {
    Page(Update(Empty, sessionCookies), reference, None, None, map[])
  }

  /** Discovery: follow the reference into the schedule subsystem, read the
      semester options and the form action. */
  function Fetch(p: Page, d: Discovery): (st: Step<()>)
    ensures st.page.reference == p.reference && st.page.cache == p.cache
    ensures PostCount(st.sent) == 0
    ensures 1 <= |st.sent| <= 3
    ensures st.sent[0] == Get(PortalDomain + p.reference, p.cookies)
    ensures st.result.Success? <==> d.reference.body.Some? && d.selection.body.formAction.Some?
    ensures d.reference.body.None? ==>
      st == Step(p.(cookies := Update(p.cookies, d.reference.cookies)),
                 [Get(PortalDomain + p.reference, p.cookies)], Failure(MalformedRedirect))
    ensures d.reference.body.Some? ==>
      && |st.sent| == 3
      && st.sent[1] == Get(LeaDomain + "/" + d.reference.body.value, Update(p.cookies, d.reference.cookies))
      && st.sent[2] == Get(LeaDomain + "/hrre/horaire.ovx", st.page.cookies)
      && st.page.cookies == Update(Update(p.cookies, d.reference.cookies), d.bridge.cookies)
      && st.page.semesters == Some(SemestersOf(d.selection.body.options))
    ensures st.result.Success? ==>
      st.page.requestUrl == Some(LeaDomain + "/hrre/" + d.selection.body.formAction.value)
    // a discovery that found no options leaves the page needing discovery again
    ensures d.reference.body.Some? ==> (NeedsDiscovery(st.page) <==> |d.selection.body.options| == 0)
    ensures d.reference.body.Some? && st.result.Failure? ==>
      st.result.error == MissingFormAction && st.page.requestUrl == p.requestUrl
  {
    var first := Get(PortalDomain + p.reference, p.cookies);
    var afterFirst := Update(p.cookies, d.reference.cookies);
    match d.reference.body
    case None =>
      Step(p.(cookies := afterFirst), [first], Failure(MalformedRedirect))
    case Some(location) =>
      var bridge := Get(LeaDomain + "/" + location, afterFirst);
      var afterBridge := Update(afterFirst, d.bridge.cookies);
      var selection := Get(LeaDomain + "/hrre/horaire.ovx", afterBridge);
      var found := p.(cookies := afterBridge, semesters := Some(SemestersOf(d.selection.body.options)));
      match d.selection.body.formAction
      case None =>
        Step(found, [first, bridge, selection], Failure(MissingFormAction))
      case Some(action) =>
        Step(found.(requestUrl := Some(LeaDomain + "/hrre/" + action)), [first, bridge, selection], Success(()))
  }

  /** Run discovery when the page needs it, and otherwise do nothing. */
  function EnsureDiscovered(p: Page, d: Discovery): (st: Step<()>)
    ensures !NeedsDiscovery(p) ==> st == Step(p, [], Success(()))
    ensures NeedsDiscovery(p) ==> st == Fetch(p, d)
    ensures st.result.Success? ==> st.page.semesters.Some?
    ensures st.page.reference == p.reference && st.page.cache == p.cache
    // after a successful discovery the page needs discovery again only when it found no semester
    ensures st.result.Success? ==>
      (NeedsDiscovery(st.page) <==> NeedsDiscovery(p) && |d.selection.body.options| == 0)
    ensures PostCount(st.sent) == 0
  {
    if NeedsDiscovery(p) then Fetch(p, d) else Step(p, [], Success(()))
  }

  /** The current semester: the first discovered one flagged current, if any. */
  function GetCurrentSemester(p: Page, d: Discovery): (st: Step<Option<Semester>>)
    ensures !NeedsDiscovery(p) ==> st.page == p && st.sent == []
    ensures NeedsDiscovery(p) ==> st.page == Fetch(p, d).page && st.sent == Fetch(p, d).sent
    ensures st.result.Failure? <==> NeedsDiscovery(p) && Fetch(p, d).result.Failure?
    ensures st.result.Failure? ==> st.result.error == Fetch(p, d).result.error
    ensures NeedsDiscovery(p) && st.result.Success? ==>
      st.result.value == FirstCurrent(SemestersOf(d.selection.body.options))
    ensures st.result.Success? ==>
      && st.page.semesters.Some?
      && var ss := st.page.semesters.value;
         && (st.result.value.None? <==> forall i :: 0 <= i < |ss| ==> !ss[i].current)
         && (st.result.value.Some? ==>
              exists i :: 0 <= i < |ss| && ss[i] == st.result.value.value && ss[i].current &&
                          forall j :: 0 <= j < i ==> !ss[j].current)
  {
    var disc := EnsureDiscovered(p, d);
    if disc.result.Failure? then Step(disc.page, disc.sent, Failure(disc.result.error))
    else
      assert disc.page.semesters.Some?;
      Step(disc.page, disc.sent, Success(FirstCurrent(disc.page.semesters.value)))
  }

  /** All semesters, exactly as discovered and in discovered order. */
  function GetAllSemesters(p: Page, d: Discovery): (st: Step<seq<Semester>>)
    ensures !NeedsDiscovery(p) ==> st == Step(p, [], Success(p.semesters.value))
    ensures NeedsDiscovery(p) ==> st.page == Fetch(p, d).page && st.sent == Fetch(p, d).sent
    ensures NeedsDiscovery(p) && st.result.Success? ==>
      st.result.value == SemestersOf(d.selection.body.options) && st.page == Fetch(p, d).page
    ensures st.result.Failure? <==> NeedsDiscovery(p) && Fetch(p, d).result.Failure?
    ensures st.result.Failure? ==> Fetch(p, d).result == Failure(st.result.error)
  {
    var disc := EnsureDiscovered(p, d);
    if disc.result.Failure? then Step(disc.page, disc.sent, Failure(disc.result.error))
    else
      assert disc.page.semesters.Some?;
      Step(disc.page, disc.sent, Success(disc.page.semesters.value))
  }

  /** The schedule of `s`: the cached one unless `force`, otherwise fetched,
      translated and stored in the cache under `s.id`. */
  function GetSchedule(p: Page, s: Semester, force: bool, d: Discovery, f: ScheduleFetch): (st: Step<Schedule>)
    // a cache hit on a discovered page sends nothing and changes nothing
    ensures !NeedsDiscovery(p) && !force && s.id in p.cache ==> st == Step(p, [], Success(p.cache[s.id]))
    // a failed discovery is passed through unchanged
    ensures var disc := EnsureDiscovered(p, d);
      disc.result.Failure? ==> st == Step(disc.page, disc.sent, Failure(disc.result.error))
    // an unforced cache hit returns the cached schedule after any discovery
    ensures var disc := EnsureDiscovered(p, d);
      !force && s.id in p.cache && disc.result.Success? ==> st == Step(disc.page, disc.sent, Success(p.cache[s.id]))
    // a bypassed or missed cache: when the fetch succeeds, what it sends, and which error it raises
    ensures var disc := EnsureDiscovered(p, d);
      (force || s.id !in p.cache) && disc.result.Success? ==>
        && (st.result.Success? <==>
              disc.page.requestUrl.Some? && f.request.body.Some? && Translate(f.results.body).Success?)
        && (disc.page.requestUrl.None? ==> st.result == Failure(MissingRequestUrl) && st.sent == disc.sent)
        && (disc.page.requestUrl.Some? && f.request.body.None? ==>
              st.result == Failure(MalformedRedirect) &&
              st.sent == disc.sent + [Post(disc.page.requestUrl.value, ScheduleForm(s.id), st.page.cookies)])
        && (disc.page.requestUrl.Some? && f.request.body.Some? ==>
              && st.sent == disc.sent + [Post(disc.page.requestUrl.value, ScheduleForm(s.id), st.page.cookies),
                                         Get(LeaDomain + "/hrre/" + f.request.body.value, st.page.cookies)]
              && (Translate(f.results.body).Failure? ==> st.result == Failure(Translate(f.results.body).error)))
    // at most one schedule request, and only when the cache is bypassed or misses
    ensures PostCount(st.sent) <= 1
    ensures PostCount(st.sent) == 1 ==> force || s.id !in p.cache
    // only the cache can differ from the page discovery left behind: in particular
    // cookies set by the schedule responses are not kept
    ensures st.page == EnsureDiscovered(p, d).page.(cache := st.page.cache)
    ensures st.result.Failure? ==> st.page.cache == p.cache
    // a fetched schedule belongs to the argument, holds the translated courses,
    // and replaces only the cache entry of its semester id
    ensures (force || s.id !in p.cache) && st.result.Success? ==>
      && PostCount(st.sent) == 1
      && st.result.value.semester == s
      && Translate(f.results.body) == Success(st.result.value.courses)
      && (f.results.body.warning ==> st.result.value.courses == [])
      && st.page.cache.Keys == p.cache.Keys + {s.id}
      && st.page.cache[s.id] == st.result.value
      && forall id :: id in p.cache && id != s.id ==> st.page.cache[id] == p.cache[id]
    // whatever is returned is what the cache now holds for the semester id
    ensures st.result.Success? ==> s.id in st.page.cache && st.page.cache[s.id] == st.result.value
    ensures CacheCoherent(p) ==> CacheCoherent(st.page)
    ensures CacheCoherent(p) && st.result.Success? ==> st.result.value.semester.id == s.id
  {
    var disc := EnsureDiscovered(p, d);
    var q := disc.page;
    if disc.result.Failure? then Step(q, disc.sent, Failure(disc.result.error))
    else if !force && s.id in q.cache then Step(q, disc.sent, Success(q.cache[s.id]))
    else if q.requestUrl.None? then Step(q, disc.sent, Failure(MissingRequestUrl))
    else
      var post := Post(q.requestUrl.value, ScheduleForm(s.id), q.cookies);
      match f.request.body
      case None =>
        PostCountAppend(disc.sent, [post]);
        Step(q, disc.sent + [post], Failure(MalformedRedirect))
      case Some(location) =>
        var results := Get(LeaDomain + "/hrre/" + location, q.cookies);
        PostCountAppend(disc.sent, [post, results]);
        match Translate(f.results.body)
        case Failure(e) => Step(q, disc.sent + [post, results], Failure(e))
        case Success(courses) =>
          var schedule := Schedule(s, courses);
          Step(q.(cache := q.cache[s.id := schedule]), disc.sent + [post, results], Success(schedule))
  }
}

=== FILE: table.dfy ===
/** The translation of a schedule results page into courses.  A page is seen
    through the parts the wrapper selects on it: whether the "no results"
    warning is present, and the nested tables of the page layout, each a
    sequence of rows of cells. */
module ScheduleTable {

  import opened Wrappers
  import opened Errors
  import opened Records

  /** A table cell, seen through the text of its labels (`span`) and of its links (`a`). */
  datatype Cell = Cell(spanText: string, linkText: string)

  type Row = seq<Cell>

  type Table = seq<Row>

  /** A results page: `warning` is whether a `.tbAvertissement` element exists;
      `tables` are the tables nested in a table of the layout region, in document order. */
  datatype ResultsPage = ResultsPage(warning: bool, tables: seq<Table>)

  /** The table among `tables` that lists the courses. */
  const CourseTableIndex: nat := 3
  /** Rows before the first course row: headers and spacers. */
  const HeaderRows: nat := 3
  /** Cells a course row must have: the course fields sit in cells 1 to 4. */
  const RowCells: nat := 5

  /** Row `i` of `rows` holds a course: it lies between the header rows and the footer row. */
  predicate IsDataRow(rows: Table, i: int)
  {
    HeaderRows <= i < |rows| - 1
  }

  /** The number of data rows of a table. */
  function DataRowCount(rows: Table): nat
  {
    if |rows| < HeaderRows + 1 then 0 else |rows| - HeaderRows - 1
  }

  /** The course a row stands for: number, section and title are the label
      texts of cells 1, 2 and 3, the teacher is the link text of cell 4. */
  predicate IsCourseOf(c: Course, row: Row)
    requires |row| >= RowCells
  {
    && c.number == row[1].spanText
    && c.section == row[2].spanText
    && c.title == row[3].spanText
    && c.teacher == row[4].linkText
  }

  /** The courses of rows `i` up to the footer, or the first of those rows that is too short. */
  function TranslateRowsFrom(rows: Table, i: nat): (r: Result<seq<Course>, Error>)
    decreases |rows| - i
    ensures r.Success? <==> forall j :: i <= j < |rows| - 1 ==> |rows[j]| >= RowCells
    ensures r.Success? ==>
      && |r.value| == (if i < |rows| - 1 then |rows| - 1 - i else 0)
      && forall k :: 0 <= k < |r.value| ==> |rows[i + k]| >= RowCells && IsCourseOf(r.value[k], rows[i + k])
    ensures r.Failure? ==>
      exists j :: i <= j < |rows| - 1 && r.error == MalformedRow(j) && |rows[j]| < RowCells &&
                  forall j' :: i <= j' < j ==> |rows[j']| >= RowCells
  {
    if i >= |rows| - 1 then Success([])
    else if |rows[i]| < RowCells then Failure(MalformedRow(i))
    else
      var row := rows[i];
      var c := Course(row[1].spanText, row[2].spanText, row[3].spanText, row[4].linkText);
      match TranslateRowsFrom(rows, i + 1)
      case Success(cs) => Success([c] + cs)
      case Failure(e) => Failure(e)
  }

  /** The courses listed by a course table: one per data row, course `k`
      read from row `k + 3`, unless some data row is too short, in which case
      the error names the first such row. */
  function TranslateRows(rows: Table): (r: Result<seq<Course>, Error>)
    ensures r.Success? <==> forall i :: IsDataRow(rows, i) ==> |rows[i]| >= RowCells
    ensures r.Success? ==>
      && |r.value| == DataRowCount(rows)
      && forall k :: 0 <= k < |r.value| ==> IsDataRow(rows, k + HeaderRows) && IsCourseOf(r.value[k], rows[k + HeaderRows])
    ensures r.Failure? ==>
      exists j :: IsDataRow(rows, j) && r.error == MalformedRow(j) && |rows[j]| < RowCells &&
                  forall i :: HeaderRows <= i < j ==> |rows[i]| >= RowCells
  {
    TranslateRowsFrom(rows, HeaderRows)
  }

  /** The courses of a results page: none when the warning is present, a
      missing-table error when the layout has no fourth nested table, and
      otherwise the translation of that table. */
  function Translate(page: ResultsPage): (r: Result<seq<Course>, Error>)
    ensures page.warning ==> r == Success([])
    ensures !page.warning && |page.tables| <= CourseTableIndex ==> r == Failure(MissingCourseTable)
    ensures !page.warning && |page.tables| > CourseTableIndex ==> r == TranslateRows(page.tables[CourseTableIndex])
    ensures r.Failure? ==> !page.warning
  {
    if page.warning then Success([])
    else if |page.tables| <= CourseTableIndex then Failure(MissingCourseTable)
    else TranslateRows(page.tables[CourseTableIndex])
  }
}

=== FILE: wrappers.dfy ===
/** Failure-carrying datatypes shared by the whole model. */
module Wrappers {

  /** An optional value: Python's `None` or a present value. */
  datatype Option<+T> = None | Some(value: T)

  /** The outcome of an operation that may raise: a value, or the error it raised. */
  datatype Result<+T, +E> = Success(value: T) | Failure(error: E)
}
